=== FILE: README.md ===
# Storefront core logic, modelled in Dafny

This project models four pieces of a Medusa-based running-gear storefront and proves properties about them:

- **PayPal payment provider** (`paypal.dfy`, module `PayPal`). This is the adapter the commerce engine calls to validate its options, create, update, authorize, capture, refund, cancel, delete and retrieve a payment, query a payment's status, and read a webhook.
  - Each operation is a function of the payment `input` and of the gateway's replies (an `Exchange`).
  - Each returns the response object and the list of gateway requests issued, in order (an `Outcome`).
  - JavaScript values in the session data are a `Value` datatype with JavaScript truthiness.
  - Amounts are whole cents rendered as `(cents / 100).toFixed(2)`.
- **Paginated product listing** (`catalogue.dfy`, module `Catalogue`):
  - the category helpers;
  - the choice between the collection, category (with its children), explicit-ids and all-products queries;
  - the optional re-sort;
  - the manual twelve-per-page pagination, with JavaScript `slice` semantics.
- **Navigation bar category selection** (`navigation.dfy`, module `Navigation`):
  - the root categories;
  - the alias lookups for the men, women, shoes and spikes categories and the sale collection;
  - the substring-based subcategory filter;
  - the gender menu: up to six named picks in a fixed order, then at most three other children.
- **Hero carousel** (`hero.dfy`, module `Hero`). This is the `currentSlide` state of the three-slide carousel, as a class whose methods are the timer tick and "next" arrow, the "previous" arrow, and the indicator click.

Shared modules:

- `wrappers.dfy`: `Option`.
- `seqs.dfy`: `Array.prototype.filter`/`find`/`map`/`slice(0, n)` as `Filter`/`Find`/`Map`/`Take`, with the subsequence relation.
- `strings.dfy`: `String.prototype.includes`, ASCII `toUpperCase`, and decimal rendering and parsing.

Network calls are not modelled. This covers the PayPal REST calls, the region, category and product queries, and the navbar data loading. Their results are parameters of the model instead.

## Model

| member | source | states |
|---|---|---|
| PayPal.ValidateOptions | storefront/src/providers/payment/paypal-payment/index.ts:36-43 | Rejected with the client_id message exactly when client_id is falsy. Rejected with the client_secret message exactly when client_id is truthy and client_secret falsy. Accepted exactly when both are truthy. |
| PayPal.BaseUrl | storefront/src/providers/payment/paypal-payment/index.ts:31-33 | The sandbox host exactly when the `sandbox` option is truthy, the live host otherwise. |
| PayPal.PayPalPaymentProvider.constructor | storefront/src/providers/payment/paypal-payment/index.ts:26-34 | Keeps the options. The API URL is the sandbox host iff `sandbox` is truthy, else the live host. |
| PayPal.PayPalPaymentProvider.Url | storefront/src/providers/payment/paypal-payment/index.ts:263 | Every request URL is the host fixed at construction followed by the request's path. |
| PayPal.PathOf | storefront/src/providers/payment/paypal-payment/index.ts:284 | Every endpoint path is non-empty and starts with `/`. |
| PayPal.FormatCents | storefront/src/providers/payment/paypal-payment/index.ts:78 | The rendered amount is decimal digits, a point, and exactly two digits. The integer part has no leading zero: a text starting with `0` is `0.xx`. |
| PayPal.FormatCentsRoundTrip | storefront/src/providers/payment/paypal-payment/index.ts:78 | Reading the rendered amount back gives exactly the cents it was rendered from. |
| PayPal.GatewayStatus | storefront/src/providers/payment/paypal-payment/index.ts:56-65 | APPROVED ↔ authorized, COMPLETED ↔ captured, CANCELLED ↔ canceled, and any other status ↔ pending. Never error. |
| PayPal.GetPaymentStatus | storefront/src/providers/payment/paypal-payment/index.ts:45-70 | With no truthy order id: pending, and no gateway request. Otherwise: a token request, then a GET of that order; only the token request when it throws. The status is error exactly when a request threw, and otherwise the mapped order status. |
| PayPal.PlaceOrder | storefront/src/providers/payment/paypal-payment/index.ts:72-100 | Sends the token request, and nothing more when it throws or when the currency code is not a string; otherwise it then sends an order with the upper-cased currency and the amount rendered from the cents. Succeeds iff the token and order replies arrive and the currency code is a string. On success the data has exactly the keys order id, amount and currency code, holding the new order id and the original cents and code. Every failure carries the operation's code. A thrown request, or the `TypeError` of `toUpperCase` on a non-string currency code, gives exactly that error's message as message and as detail. |
| PayPal.InitiatePayment | storefront/src/providers/payment/paypal-payment/index.ts:72-100 | Only the token request when it throws or when the currency code is not a string. Otherwise, when the currency code is a string, the token request, then an order carrying the resource id, the upper-cased currency and the amount rendered from the cents. Succeeds iff both replies arrive and the currency code is a string. On success there is no status and the data has exactly the new order id, the original cents and the original currency code. Every failure carries `paypal_error`. A thrown request, or the `TypeError` of `toUpperCase` on a non-string currency code, gives exactly that error's message as message and as detail. |
| PayPal.UpdatePayment | storefront/src/providers/payment/paypal-payment/index.ts:226-255 | Always creates a new order: only the token request when it throws or when the currency code is not a string. Otherwise, when the currency code is a string, the token request, then an order carrying the resource id, the upper-cased currency and the amount rendered from the cents. Succeeds iff both replies arrive and the currency code is a string. On success there is no status and the data has exactly the new order id, the original cents and the original currency code. Every failure carries `paypal_update_error`. A thrown request, or the `TypeError` of `toUpperCase` on a non-string currency code, gives exactly that error's message as message and as detail. |
| PayPal.UpdateIgnoresPreviousData | storefront/src/providers/payment/paypal-payment/index.ts:226-244 | An update's result does not depend on the session's previous data, including any earlier order id. |
| PayPal.AuthorizePayment | storefront/src/providers/payment/paypal-payment/index.ts:102-137 | Only the token request when it throws, otherwise the token request and the order query. Succeeds iff the order query answers with status APPROVED. On success the status is authorized and the data is the old data with `paypal_status` and `authorized: true` added, every other key kept. A non-approved order gives `paypal_not_approved` with no detail. A thrown request gives `paypal_authorization_error`, with exactly the thrown message as message and as detail. |
| PayPal.AuthorizeAgreesWithStatus | storefront/src/providers/payment/paypal-payment/index.ts:56-58 | With an order id and the same gateway replies, authorization succeeds exactly when the status query reports authorized. |
| PayPal.CancelPayment | storefront/src/providers/payment/paypal-payment/index.ts:139-147 | No gateway request. The data is the old data with `cancelled: true` added, every other key kept. |
| PayPal.DeletePayment | storefront/src/providers/payment/paypal-payment/index.ts:175-177 | Identical to cancelling. No gateway request. The old keys are kept. |
| PayPal.RetrievePayment | storefront/src/providers/payment/paypal-payment/index.ts:220-224 | No gateway request. The stored data is returned unchanged. |
| PayPal.GetWebhookActionAndData | storefront/src/providers/payment/paypal-payment/index.ts:179-185 | Fails (the TypeError) exactly when there is no payload. Otherwise the action is the payload's `event_type` and the data is the payload untouched. |
| PayPal.CapturePayment | storefront/src/providers/payment/paypal-payment/index.ts:149-173 | As written. Sends a token request, then a capture of the session's order; only the token request when it throws. Succeeds iff both replies arrive. On success the old keys are kept and the capture id and `captured: true` are added. Failures carry `paypal_capture_error`. A thrown request gives exactly the thrown message as message and as detail. |
| PayPal.RefundPayment | storefront/src/providers/payment/paypal-payment/index.ts:187-218 | As written. Sends a token request, then a refund of the session's capture for the input amount in the session's currency; only the token request when it throws. Succeeds iff both replies arrive. On success the old keys are kept and the refund id and refunded amount are added. Failures carry `paypal_refund_error`. A thrown request gives exactly the thrown message as message and as detail. |
| PayPal.CaptureReportsRefusalAsCaptured | storefront/src/providers/payment/paypal-payment/index.ts:154-162 | A capture the gateway refuses with a non-2xx status is still reported as `captured: true`. |
| PayPal.RefundReportsRefusalAsRefunded | storefront/src/providers/payment/paypal-payment/index.ts:192-207 | A refund the gateway refuses with a non-2xx status is still reported with `refunded_amount` set. |
| PayPal.UnapprovedCaptureIsReportedCaptured | storefront/src/providers/payment/paypal-payment/index.ts:149-162 | A concrete HTTP 422 reply to a capture yields success with an undefined capture id and `captured: true`. |
| PayPal.CapturePaymentChecked | storefront/src/providers/payment/paypal-payment/index.ts:149-173 | The same requests as the capture. Succeeds iff both replies are 2xx, and is then identical to it. Otherwise fails with `paypal_capture_error`. |
| PayPal.RefundPaymentChecked | storefront/src/providers/payment/paypal-payment/index.ts:187-218 | The same requests as the refund. Succeeds iff both replies are 2xx, and is then identical to it. Otherwise fails with `paypal_refund_error`. |
| Strings.ToUpper | storefront/src/providers/payment/paypal-payment/index.ts:79 | Same length. Each character is upper-cased on its own. No lower-case ASCII letter remains. |
| Strings.ToUpperIdempotent | storefront/src/providers/payment/paypal-payment/index.ts:79 | Upper-casing twice is the same as upper-casing once. |
| Strings.ParseDecimalInvertsDecimal | storefront/src/providers/payment/paypal-payment/index.ts:78 | The decimal rendering of a whole number reads back as that number. |
| Catalogue.HasSubcategories | storefront/src/modules/store/templates/paginated-products.tsx:33-35 | True iff the category is present and its children list is present and non-empty. |
| Catalogue.GetSubcategoryIds | storefront/src/modules/store/templates/paginated-products.tsx:38-43 | Empty without subcategories. Otherwise the children's ids, one per child, in order. |
| Catalogue.GetProductCategoryIds | storefront/src/modules/store/templates/paginated-products.tsx:46-48 | Empty without categories. Otherwise the category ids, one per reference, in order. |
| Catalogue.CategoryIdsFor | storefront/src/modules/store/templates/paginated-products.tsx:105-139 | The category id comes first. Its children's ids follow, in order, exactly when the lookup answered 2xx with subcategories. In every other case, a thrown error included, the list is the category alone. |
| Catalogue.CategoryFilterIds | storefront/src/modules/store/templates/paginated-products.tsx:105-133 | Building the list by starting with the category and appending the children gives `CategoryIdsFor`. |
| Catalogue.ChooseBranch | storefront/src/modules/store/templates/paginated-products.tsx:89-170 | Strict priority: the collection if set, else the category if set, else the product ids if non-empty, else all products. Each branch is stated as an iff. |
| Catalogue.QueryFor | storefront/src/modules/store/templates/paginated-products.tsx:92-169 | The query is for the region with limit 100. It holds exactly the filter of the chosen branch: the collection, the category ids, or the product ids. |
| Catalogue.BuildQuery | storefront/src/modules/store/templates/paginated-products.tsx:89-170 | The page's `if`/`else if` chain builds exactly the query of the chosen branch (`QueryFor`). |
| Catalogue.SortIfRequested | storefront/src/modules/store/templates/paginated-products.tsx:190-193 | Products are re-sorted only for a set sort order other than `created_at`, and are untouched otherwise. |
| Catalogue.SliceBound | storefront/src/modules/store/templates/paginated-products.tsx:198 | `slice` index clamping: within the length, negatives counted from the end. |
| Catalogue.Slice | storefront/src/modules/store/templates/paginated-products.tsx:198 | `slice(start, end)`: the elements from the clamped start up to the clamped end, in order; empty when the clamped start is not before the clamped end. |
| Catalogue.SliceLength | storefront/src/modules/store/templates/paginated-products.tsx:198 | A slice is no longer than its index range. |
| Catalogue.TotalPages | storefront/src/modules/store/templates/paginated-products.tsx:200 | The ceiling of count/12: the pages hold every product, and one page fewer would not. |
| Catalogue.PaginationShownIffMoreThanOnePage | storefront/src/modules/store/templates/paginated-products.tsx:257 | The pagination control is shown iff there are more than 12 products. |
| Catalogue.Paginate | storefront/src/modules/store/templates/paginated-products.tsx:196-200 | For page p the range is [(p−1)·12, p·12). The page holds at most 12 products. These are exactly the products in that range for p ≥ 1, none past the end, and none for page 0. |
| Catalogue.PageHoldsConsecutiveProducts | storefront/src/modules/store/templates/paginated-products.tsx:196-198 | The k-th product on page p is product (p−1)·12 + k. |
| Catalogue.PaginatedProducts | storefront/src/modules/store/templates/paginated-products.tsx:75-263 | Without a region: the not-found view and nothing else. With a failed query: the error view. Otherwise the grid of the chosen query, showing the page slice of the (optionally re-sorted) products, at most 12, with the page count and the pagination shown iff there are more than 12 products. |
| Seqs.Filter | storefront/src/modules/layout/templates/nav/index.tsx:136 | `filter`: an order-preserving subsequence holding every element that passes and only those, each passing value exactly as often as in the input and every other value not at all. |
| Seqs.Find | storefront/src/modules/layout/templates/nav/index.tsx:139-144 | `find`: absent iff no element passes. Otherwise the first element that passes. |
| Seqs.Map | storefront/src/modules/store/templates/paginated-products.tsx:42 | `map`: one result per element, in order, each the function applied to that element. |
| Seqs.PrefixOfSubsequence | storefront/src/modules/layout/templates/nav/index.tsx:241 | A prefix (`slice(0, n)`) of a subsequence is a subsequence. |
| Strings.ContainsIsOccurrence | storefront/src/modules/layout/templates/nav/index.tsx:190 | `includes` holds iff the word occurs at some position of the handle. |
| Navigation.MainCategories | storefront/src/modules/layout/templates/nav/index.tsx:136 | Exactly the categories without a parent, as an order-preserving subsequence: each root as often as in the input, every other category not at all. |
| Navigation.CategoryByAlias | storefront/src/modules/layout/templates/nav/index.tsx:139-171 | The first category whose handle equals one of the aliases, or absent iff none does. |
| Navigation.MenCategory | storefront/src/modules/layout/templates/nav/index.tsx:139-144 | The first category with handle men, hombre or hombres; absent iff none. |
| Navigation.WomenCategory | storefront/src/modules/layout/templates/nav/index.tsx:145-150 | The first category with handle women, mujer or mujeres; absent iff none. |
| Navigation.ShoesCategory | storefront/src/modules/layout/templates/nav/index.tsx:151-156 | The first category with handle zapatillas, shoes or calzado; absent iff none. |
| Navigation.SpikesCategory | storefront/src/modules/layout/templates/nav/index.tsx:157-163 | The first category with handle zapatillas-clavos, spikes, track-shoes or clavos; absent iff none. |
| Navigation.SaleCollection | storefront/src/modules/layout/templates/nav/index.tsx:166-171 | The first collection with handle sale, ofertas or descuentos; absent iff none. |
| Navigation.GetSubcategoriesByHandles | storefront/src/modules/layout/templates/nav/index.tsx:187-192 | Empty without a parent or without children. Otherwise the order-preserving subsequence of exactly the children whose handle contains one of the words, each as often as among the children. |
| Navigation.Pick | storefront/src/modules/layout/templates/nav/index.tsx:202-227 | A bucket's pick is the first child whose handle contains one of the bucket's words, or absent iff none does. |
| Navigation.PickSeq | storefront/src/modules/layout/templates/nav/index.tsx:230-235 | A bucket contributes at most one child, a matching one, and nothing iff no child matches. |
| Navigation.NamedPicks | storefront/src/modules/layout/templates/nav/index.tsx:202-235 | At most six named picks, all of them children. |
| Navigation.Others | storefront/src/modules/layout/templates/nav/index.tsx:238-239 | The children whose id is not among the picked ids, as an order-preserving subsequence: each such child as often as among the children, every other child not at all. |
| Navigation.PushPick | storefront/src/modules/layout/templates/nav/index.tsx:202-235 | One find followed by a conditional push appends exactly the bucket's contribution. |
| Navigation.CollectNamedPicks | storefront/src/modules/layout/templates/nav/index.tsx:198-235 | The six finds and conditional pushes build exactly the named picks, in the order shoes, spikes, shirts, pants, shorts, accessories. |
| Navigation.MenuEntriesAreChildren | storefront/src/modules/layout/templates/nav/index.tsx:238-241 | Up to six picks drawn from the children, followed by the extras, give at most nine entries, all children. |
| Navigation.CreateGenderSubcategories | storefront/src/modules/layout/templates/nav/index.tsx:195-242 | Empty without a gender category or without children. Otherwise the named picks in the order shoes, spikes, shirts, pants, shorts, accessories, followed by the first three unpicked children. At most 9 entries, all children of the gender category. |
| Navigation.ExtrasAreUnpickedChildren | storefront/src/modules/layout/templates/nav/index.tsx:238-241 | At most three extras, in original order, none sharing an id with a pick. With fewer than three, every unpicked child is among them. |
| Hero.ThreeSlides | storefront/src/modules/home/components/hero/index.tsx:13-41 | There are three slides, linking to the running shoes, the spikes and the store. |
| Hero.NextIndex | storefront/src/modules/home/components/hero/index.tsx:46 | The next index stays in range and is one more, except that the last slide wraps to the first. |
| Hero.PrevIndex | storefront/src/modules/home/components/hero/index.tsx:150 | The previous index stays in range and is one less, except that the first slide wraps to the last. |
| Hero.PrevUndoesNext | storefront/src/modules/home/components/hero/index.tsx:150-157 | Previous after next, and next after previous, return the original index. |
| Hero.Advance | storefront/src/modules/home/components/hero/index.tsx:44-49 | Any number of timer ticks keeps the index in range. |
| Hero.AdvanceIsModular | storefront/src/modules/home/components/hero/index.tsx:44-49 | After n ticks from index i the carousel shows slide (i + n) mod 3. |
| Hero.FullCycleReturns | storefront/src/modules/home/components/hero/index.tsx:44-49 | Every multiple of three ticks returns to the starting slide. |
| Hero.Carousel.constructor | storefront/src/modules/home/components/hero/index.tsx:10 | The carousel starts on the first slide. |
| Hero.Carousel.Next | storefront/src/modules/home/components/hero/index.tsx:157 | The timer tick and the next arrow move to `NextIndex` of the current slide and keep the index in range. |
| Hero.Carousel.Prev | storefront/src/modules/home/components/hero/index.tsx:150 | The previous arrow moves to `PrevIndex` of the current slide and keeps the index in range. |
| Hero.Carousel.GoTo | storefront/src/modules/home/components/hero/index.tsx:137 | Clicking indicator i shows slide i. |
| Hero.Carousel.ActiveIndices | storefront/src/modules/home/components/hero/index.tsx:59-60 | Exactly one slide (and indicator) is active: the current one. |

## Left out

- Network and SDK calls are not modelled: the PayPal token, order, capture and refund requests, and the region, category and product queries. Their answers are parameters: `Exchange`, `region`, `CategoryLookup` and `Listing`. The navbar's loading of categories and collections is left out too; they are inputs.
- A gateway reply is a parsed JSON object with its HTTP status, or a thrown error. A body that fails to parse counts as thrown. Request headers and bodies other than the modelled fields (the Basic credentials, `intent: "CAPTURE"`) are not modelled.
- A caught error is represented by its message: the error object that the code places in `detail` is modelled as that message. Its name and stack trace are not modelled.
- The HTTP method of each request (GET for the order query, POST otherwise) is not modelled; only the endpoint paths are.
- PayPal.FormatCents: the cents are a whole non-negative number. Floating-point `toFixed` rounding of fractional or negative amounts, and the exponent form at 1e21 and above, are not modelled.
- Strings.ToUpper: only ASCII letters are upper-cased. Unicode case mapping is not modelled; currency codes are ASCII.
- PayPal.ToUpperCaseError: the engine's error message texts are stated as V8 writes them, but they are not something the model proves anything about.
- `input.context` is assumed present for initiate and update. A missing context throws inside the same `try` and would give the same error shape as a thrown request.
- The operations' `console` logging is not modelled. This includes the per-product category logging of the listing, which changes nothing.
- Catalogue.SortIfRequested: `sortProducts` comes from a file that is not part of this model. It is a function parameter, so nothing is claimed about the order it produces.
- The page number is taken as given; the listing does not validate it.
- Catalogue.PaginatedProducts: the JSX rendering, the debug panel and the empty-state message are left out. The result is the data the page renders.
- A product query that throws gives the error view. The category lookup's own failure is caught separately and falls back to the category alone.
- Navigation: the dropdown DOM handlers and the rendering are left out.
- Hero: the `setInterval` timer, its five-second period (kept only as a constant) and the slide rendering are left out. A timer tick is a call of `Next`.
- The provider's `static identifier = "paypal"` registration name is not modelled. It only names the provider to the framework.
- The footer, promotional banner, collections data helpers, backend constants and static-file middleware are not part of this model. They hold no logic beyond inline `slice`/`find` or environment reads.
- The code has no token cache: a token is fetched on every call, and each `Outcome` records that. It also has no payment state-transition check before capture or refund, no bound of a refund by the captured amount, and no webhook signature verification. The model follows the code and asserts none of these.

## Findings

| source | as written | input that shows it | evidently intended | confidence | as-written member | corrected member |
|---|---|---|---|---|---|---|
| storefront/src/providers/payment/paypal-payment/index.ts:149-173 | The capture returns the parsed body without reading `response.ok`, so any answer counts as a capture. | Session order `ORD-1`, token reply 200, capture reply HTTP 422 `UNPROCESSABLE_ENTITY`: the result is success with `captured: true` and an undefined capture id. | A refused capture fails with `paypal_capture_error`, as the `catch` does for thrown errors. | not executed | PayPal.CaptureReportsRefusalAsCaptured | PayPal.CapturePaymentChecked |
| storefront/src/providers/payment/paypal-payment/index.ts:187-218 | The refund returns the parsed body without reading `response.ok`, so any answer counts as a refund. | Any token reply with a 2xx status and a refund reply with a non-2xx status: the result is success with `refunded_amount` set to the requested amount. | A refused refund fails with `paypal_refund_error`. | not executed | PayPal.RefundReportsRefusalAsRefunded | PayPal.RefundPaymentChecked |

=== FILE: catalogue.dfy ===
/**
 * The product listing of the store pages: the category helpers, the choice of
 * product filter (collection, category with its children, explicit product ids,
 * or everything), the optional re-sort, and the manual pagination of twelve
 * products per page.
 *
 * The region lookup, the category fetch and the product query are not performed
 * here: their answers are parameters.
 */
module Catalogue {
  import opened Wrappers
  import opened Seqs

  /** Products shown per page. */
  const ProductLimit := 12
  /** Products requested from the store per query. */
  const FetchLimit := 100
  /** The sort order the store already returns products in. */
  const DefaultSort := "created_at"

  datatype CategoryChild = CategoryChild(id: string, name: string, handle: string)

  /** A category as the category endpoint returns it; `children` is absent or null when not expanded. */
  datatype ProductCategory = ProductCategory(id: string, name: string, children: Option<seq<CategoryChild>>)

  datatype CategoryRef = CategoryRef(id: string, name: Option<string>)

  datatype Product = Product(id: string, title: string, categories: Option<seq<CategoryRef>>)

  /** A string parameter used as a condition: present and not empty. */
  predicate IsSet(s: Option<string>)
  {
    s.Some? && s.value != ""
  }

  function Min(a: int, b: int): int
  {
    if a < b then a else b
  }

  // ---------------------------------------------------------------------------
  // Category helpers
  // ---------------------------------------------------------------------------

  /** `hasSubcategories`. */
  function HasSubcategories(category: Option<ProductCategory>): (r: bool)
    ensures r <==> category.Some? && category.value.children.Some? && |category.value.children.value| > 0
  {
    match category
    case None => false
    case Some(c) => c.children.Some? && |c.children.value| > 0
  }

  /** `getSubcategoryIds`. */
  function GetSubcategoryIds(category: ProductCategory): (ids: seq<string>)
    ensures !HasSubcategories(Some(category)) ==> ids == []
    ensures HasSubcategories(Some(category)) ==>
              && |ids| == |category.children.value|
              && forall i :: 0 <= i < |ids| ==> ids[i] == category.children.value[i].id
  {
    if !HasSubcategories(Some(category)) then [] else Map(category.children.value, (child: CategoryChild) => child.id)
  }

  /** `getProductCategoryIds`. */
  function GetProductCategoryIds(product: Product): (ids: seq<string>)
    ensures product.categories.None? ==> ids == []
    ensures product.categories.Some? ==>
              && |ids| == |product.categories.value|
              && forall i :: 0 <= i < |ids| ==> ids[i] == product.categories.value[i].id
  {
    match product.categories
    case None => []
    case Some(refs) => Map(refs, (ref: CategoryRef) => ref.id)
  }

  // ---------------------------------------------------------------------------
  // Filters
  // ---------------------------------------------------------------------------

  /** What fetching a category together with its children produced. */
  datatype CategoryLookup =
    | LookupFailed                                  // the request or the body parse threw
    | LookupNotOk                                   // the response status was not 2xx
    | LookupOk(category: Option<ProductCategory>)   // the body's `product_category`

  /** The category ids to filter by: the category itself, then its children when the lookup found any. */
  function CategoryIdsFor(categoryId: string, lookup: CategoryLookup): (ids: seq<string>)
    ensures |ids| >= 1 && ids[0] == categoryId
    ensures lookup.LookupOk? && HasSubcategories(lookup.category) ==>
              && |ids| == 1 + |lookup.category.value.children.value|
              && forall i :: 0 <= i < |ids| - 1 ==> ids[i + 1] == lookup.category.value.children.value[i].id
    ensures !(lookup.LookupOk? && HasSubcategories(lookup.category)) ==> ids == [categoryId]
  {
    if lookup.LookupOk? && HasSubcategories(lookup.category) then
      [categoryId] + GetSubcategoryIds(lookup.category.value)
    else [categoryId]
  }

  /** Builds the list the way the page does: start from the category, append the children. */
  method CategoryFilterIds(categoryId: string, lookup: CategoryLookup) returns (categoryIds: seq<string>)
    ensures categoryIds == CategoryIdsFor(categoryId, lookup)
  {
    categoryIds := [categoryId];
    match lookup {
      case LookupOk(category) =>
        if HasSubcategories(category) {
          var childIds := GetSubcategoryIds(category.value);
          categoryIds := categoryIds + childIds;
        }
      case _ =>
    }
  }

  /** Which of the four product queries runs. */
  datatype Branch = ByCollection | ByCategory | ByProductIds | AllProducts

  /** The strict priority: collection, then category, then a non-empty id list, else everything. */
  function ChooseBranch(collectionId: Option<string>, categoryId: Option<string>, productsIds: Option<seq<string>>): (b: Branch)
    ensures b == ByCollection <==> IsSet(collectionId)
    ensures b == ByCategory <==> !IsSet(collectionId) && IsSet(categoryId)
    ensures b == ByProductIds <==>
              !IsSet(collectionId) && !IsSet(categoryId) && productsIds.Some? && |productsIds.value| > 0
    ensures b == AllProducts <==>
              !IsSet(collectionId) && !IsSet(categoryId) && !(productsIds.Some? && |productsIds.value| > 0)
  {
    if IsSet(collectionId) then ByCollection
    else if IsSet(categoryId) then ByCategory
    else if productsIds.Some? && |productsIds.value| > 0 then ByProductIds
    else AllProducts
  }

  /** The product list query: at most one of the three filters is present. */
  datatype ProductQuery = ProductQuery(
    regionId: string,
    collectionIds: Option<seq<string>>,
    categoryIds: Option<seq<string>>,
    ids: Option<seq<string>>,
    limit: nat)

  /** The query the chosen branch sends. */
  function QueryFor(regionId: string, collectionId: Option<string>, categoryId: Option<string>,
                    productsIds: Option<seq<string>>, lookup: CategoryLookup): (q: ProductQuery)
    ensures q.regionId == regionId && q.limit == FetchLimit
    ensures q.collectionIds.Some? <==> ChooseBranch(collectionId, categoryId, productsIds) == ByCollection
    ensures q.categoryIds.Some? <==> ChooseBranch(collectionId, categoryId, productsIds) == ByCategory
    ensures q.ids.Some? <==> ChooseBranch(collectionId, categoryId, productsIds) == ByProductIds
    ensures q.collectionIds.Some? ==> q.collectionIds.value == [collectionId.value]
    ensures q.categoryIds.Some? ==> q.categoryIds.value == CategoryIdsFor(categoryId.value, lookup)
    ensures q.ids.Some? ==> q.ids == productsIds
  {
    match ChooseBranch(collectionId, categoryId, productsIds)
    case ByCollection => ProductQuery(regionId, Some([collectionId.value]), None, None, FetchLimit)
    case ByCategory => ProductQuery(regionId, None, Some(CategoryIdsFor(categoryId.value, lookup)), None, FetchLimit)
    case ByProductIds => ProductQuery(regionId, None, None, productsIds, FetchLimit)
    case AllProducts => ProductQuery(regionId, None, None, None, FetchLimit)
  }

  // ---------------------------------------------------------------------------
  // Sorting and pagination
  // ---------------------------------------------------------------------------

  /** Products are re-sorted only for a requested order other than the default one. */
  function SortIfRequested(products: seq<Product>, sortBy: Option<string>,
                           sortProducts: (seq<Product>, string) -> seq<Product>): (r: seq<Product>)
    ensures !(IsSet(sortBy) && sortBy.value != DefaultSort) ==> r == products
    ensures IsSet(sortBy) && sortBy.value != DefaultSort ==> r == sortProducts(products, sortBy.value)
  {
    if IsSet(sortBy) && sortBy.value != DefaultSort then sortProducts(products, sortBy.value) else products
  }

  /** Where `Array.prototype.slice` starts or stops for an index argument: negatives count from the end. */
  function SliceBound(i: int, length: nat): (b: nat)
    ensures b <= length
    ensures 0 <= i <= length ==> b == i
    ensures i > length ==> b == length
    ensures i < 0 ==> b == if length + i < 0 then 0 else length + i
  {
    if i < 0 then (if length + i < 0 then 0 else length + i)
    else if i > length then length
    else i
  }

  /** `Array.prototype.slice(start, end)`. */
  function Slice<T>(s: seq<T>, start: int, end: int): (r: seq<T>)
    ensures var from, to := SliceBound(start, |s|), SliceBound(end, |s|);
            && |r| == (if from < to then to - from else 0)
            && forall k :: 0 <= k < |r| ==> r[k] == s[from + k]
  {
    var from, to := SliceBound(start, |s|), SliceBound(end, |s|);
    if from < to then s[from..to] else []
  }

  /** A slice is never longer than its index range. */
  lemma SliceLength<T>(s: seq<T>, start: int, end: int)
    requires start <= end
    ensures |Slice(s, start, end)| <= end - start
  {
  }

  /** `Math.ceil(count / PRODUCT_LIMIT)`: the fewest pages that hold `count` products. */
  function TotalPages(count: nat): (pages: nat)
    ensures count <= pages * ProductLimit
    ensures pages > 0 ==> (pages - 1) * ProductLimit < count
  {
    (count + ProductLimit - 1) / ProductLimit
  }

  /** The pagination control appears when there is more than one page. */
  predicate ShowPagination(totalPages: nat)
  {
    totalPages > 1
  }

  lemma {:induction false} PaginationShownIffMoreThanOnePage(count: nat)
    ensures ShowPagination(TotalPages(count)) <==> count > ProductLimit
  {
    var pages := TotalPages(count);
    if count > ProductLimit {
      assert pages * ProductLimit > ProductLimit;
    }
  }

  /** The manual pagination: the page's index range, its products and the page count. */
  method Paginate(products: seq<Product>, page: int, count: nat)
    returns (startIndex: int, endIndex: int, pageItems: seq<Product>, totalPages: nat)
    ensures startIndex == (page - 1) * ProductLimit && endIndex == startIndex + ProductLimit
    ensures pageItems == Slice(products, startIndex, endIndex)
    ensures |pageItems| <= ProductLimit
    ensures page >= 1 && startIndex < |products| ==> pageItems == products[startIndex..Min(endIndex, |products|)]
    ensures page >= 1 && startIndex >= |products| ==> pageItems == []
    ensures page == 0 ==> pageItems == []
    ensures totalPages == TotalPages(count)
  {
    startIndex := (page - 1) * ProductLimit;
    endIndex := startIndex + ProductLimit;
    pageItems := Slice(products, startIndex, endIndex);
    SliceLength(products, startIndex, endIndex);
    totalPages := TotalPages(count);
  }

  /** Every product of page `page` (page ≥ 1) is the product at its offset from the page's start. */
  lemma {:induction false} PageHoldsConsecutiveProducts(products: seq<Product>, page: int, k: int)
    requires page >= 1
    requires 0 <= k < |Slice(products, (page - 1) * ProductLimit, page * ProductLimit)|
    ensures (page - 1) * ProductLimit + k < |products|
    ensures Slice(products, (page - 1) * ProductLimit, page * ProductLimit)[k] == products[(page - 1) * ProductLimit + k]
  {
    var start := (page - 1) * ProductLimit;
    assert start >= 0;
    assert start < |products|;
  }

  // ---------------------------------------------------------------------------
  // The page
  // ---------------------------------------------------------------------------

  /** The `if`/`else if` chain that picks and builds the product query. */
  method BuildQuery(regionId: string, collectionId: Option<string>, categoryId: Option<string>,
                    productsIds: Option<seq<string>>, lookup: CategoryLookup)
    returns (query: ProductQuery)
    ensures query == QueryFor(regionId, collectionId, categoryId, productsIds, lookup)
  {
    if IsSet(collectionId) {
      query := ProductQuery(regionId, Some([collectionId.value]), None, None, FetchLimit);
    } else if IsSet(categoryId) {
      var categoryIds := CategoryFilterIds(categoryId.value, lookup);
      query := ProductQuery(regionId, None, Some(categoryIds), None, FetchLimit);
    } else if productsIds.Some? && |productsIds.value| > 0 {
      query := ProductQuery(regionId, None, None, productsIds, FetchLimit);
    } else {
      query := ProductQuery(regionId, None, None, None, FetchLimit);
    }
  }

  /** What the product query produced. */
  datatype Listing = Listed(products: seq<Product>, count: nat) | ListingFailed

  /** What the listing renders. */
  datatype PageView =
    | RegionNotFound(countryCode: string)
    | LoadError
    | ProductGrid(query: ProductQuery, items: seq<Product>, page: int, totalPages: nat, showPagination: bool)

  /**
   * The listing: no region, no products; otherwise the chosen query, then the
   * optional sort, then the page slice. `region` is the region id found for the
   * country code, `lookup` the category fetch (used only when filtering by
   * category) and `listing` what the product query answered.
   */
  method PaginatedProducts(
    sortBy: Option<string>, page: int, collectionId: Option<string>, categoryId: Option<string>,
    productsIds: Option<seq<string>>, countryCode: string,
    region: Option<string>, lookup: CategoryLookup, listing: Listing,
    sortProducts: (seq<Product>, string) -> seq<Product>)
    returns (view: PageView)
    ensures region.None? <==> view == RegionNotFound(countryCode)
    ensures region.Some? && listing.ListingFailed? ==> view == LoadError
    ensures region.Some? && listing.Listed? ==>
              && view.ProductGrid?
              && view.query == QueryFor(region.value, collectionId, categoryId, productsIds, lookup)
              && view.items == Slice(SortIfRequested(listing.products, sortBy, sortProducts),
                                     (page - 1) * ProductLimit, page * ProductLimit)
              && |view.items| <= ProductLimit
              && view.page == page
              && view.totalPages == TotalPages(listing.count)
              && view.showPagination == (listing.count > ProductLimit)
  {
    if region.None? {
      return RegionNotFound(countryCode);
    }
    var query := BuildQuery(region.value, collectionId, categoryId, productsIds, lookup);
    match listing {
      case ListingFailed =>
        view := LoadError;
      case Listed(found, count) =>
        var products := found;
        if IsSet(sortBy) && sortBy.value != DefaultSort {
          products := sortProducts(products, sortBy.value);
        }
        var startIndex, endIndex, pageItems, totalPages := Paginate(products, page, count);
        PaginationShownIffMoreThanOnePage(count);
        view := ProductGrid(query, pageItems, page, totalPages, ShowPagination(totalPages));
    }
  }
}

=== FILE: hero.dfy ===
/**
 * The home-page hero carousel: three fixed slides and a `currentSlide` index
 * that the five-second timer and the "next" arrow advance, the "previous"
 * arrow moves back, and the indicator buttons set directly, always modulo the
 * number of slides.
 *
 * The timer itself, the rendering and the slide images are not part of this
 * module; only the index and its transitions are.
 */
module Hero {

  /** The parts of a slide that name it; images, subtitles and badges are presentation only. */
  datatype Slide = Slide(title: string, highlight: string, cta: string, link: string)

  const Slides: seq<Slide> := [
    Slide("CORRE COMO UN", "CAMPEÓN", "EXPLORAR RUNNING", "/categories/zapatillas"),
    Slide("VELOCIDAD", "EXPLOSIVA", "VER CLAVOS", "/categories/zapatillas-clavos"),
    Slide("ENTRENA SIN", "LÍMITES", "SHOP NOW", "/store")
  ]

  /** `slides.length`. */
  const SlideCount := |Slides|

  /** The timer period of the auto-advance, in milliseconds. */
  const AutoAdvanceMillis := 5000

  /** A slide index that can be shown. */
  predicate InRange(i: int)
  {
    0 <= i < SlideCount
  }

  /** `(prev + 1) % slides.length`: the following slide, wrapping from the last to the first. */
  function NextIndex(i: int): (r: int)
    requires InRange(i)
    ensures InRange(r)
    ensures r == if i == SlideCount - 1 then 0 else i + 1
  {
    (i + 1) % SlideCount
  }

  /** `(prev - 1 + slides.length) % slides.length`: the preceding slide, wrapping from the first to the last. */
  function PrevIndex(i: int): (r: int)
    requires InRange(i)
    ensures InRange(r)
    ensures r == if i == 0 then SlideCount - 1 else i - 1
  {
    (i - 1 + SlideCount) % SlideCount
  }

  /** The index after `n` advances. */
  function Advance(i: int, n: nat): (r: int)
    requires InRange(i)
    ensures InRange(r)
  {
    if n == 0 then i else NextIndex(Advance(i, n - 1))
  }

  /** The carousel has three slides. */
  lemma ThreeSlides()
    ensures SlideCount == 3
    ensures Slides[0].link == "/categories/zapatillas"
    ensures Slides[1].link == "/categories/zapatillas-clavos"
    ensures Slides[2].link == "/store"
  {
  }

  /** Going back undoes going forward, and going forward undoes going back. */
  lemma PrevUndoesNext(i: int)
    requires InRange(i)
    ensures PrevIndex(NextIndex(i)) == i
    ensures NextIndex(PrevIndex(i)) == i
  {
  }

  /** `n` advances land on `(i + n) % 3`: the slides are shown in a cycle. */
  lemma {:induction false} AdvanceIsModular(i: int, n: nat)
    requires InRange(i)
    ensures Advance(i, n) == (i + n) % SlideCount
  {
    if n > 0 {
      AdvanceIsModular(i, n - 1);
      var m := i + n - 1;
      assert m == m / SlideCount * SlideCount + m % SlideCount;
      if m % SlideCount == SlideCount - 1 {
        assert m + 1 == (m / SlideCount + 1) * SlideCount;
      } else {
        assert m + 1 == m / SlideCount * SlideCount + (m % SlideCount + 1);
      }
    }
  }

  /** After as many advances as there are slides, the carousel shows the slide it started on. */
  lemma {:induction false} FullCycleReturns(i: int, rounds: nat)
    requires InRange(i)
    ensures Advance(i, rounds * SlideCount) == i
  {
    AdvanceIsModular(i, rounds * SlideCount);
    ModuloAddMultiple(i, rounds);
  }

  lemma {:induction false} ModuloAddMultiple(i: int, rounds: nat)
    requires InRange(i)
    ensures (i + rounds * SlideCount) % SlideCount == i
  {
    if rounds > 0 {
      ModuloAddMultiple(i, rounds - 1);
      assert i + rounds * SlideCount == (i + (rounds - 1) * SlideCount) + SlideCount;
    }
  }

  /** The `currentSlide` state of the hero component. */
  class Carousel {
    var currentSlide: int

    ghost predicate Valid()
      reads this
    {
      InRange(currentSlide)
    }

    /** `useState(0)`: the first slide is shown first. */
    constructor()
      ensures Valid()
      ensures currentSlide == 0
    {
      currentSlide := 0;
    }

    /** The timer tick and the "next" arrow. */
    method Next()
      requires Valid()
      modifies this
      ensures Valid()
      ensures currentSlide == NextIndex(old(currentSlide))
    {
      currentSlide := (currentSlide + 1) % SlideCount;
    }

    /** The "previous" arrow. */
    method Prev()
      requires Valid()
      modifies this
      ensures Valid()
      ensures currentSlide == PrevIndex(old(currentSlide))
    {
      currentSlide := (currentSlide - 1 + SlideCount) % SlideCount;
    }

    /** Indicator `index` was clicked; the indicators exist only for the slides' indices. */
    method GoTo(index: int)
      requires Valid()
      requires InRange(index)
      modifies this
      ensures Valid()
      ensures currentSlide == index
    {
      currentSlide := index;
    }

    /** `index === currentSlide`: the slide is opaque and its indicator wide. */
    predicate IsActive(index: int)
      reads this
    {
      index == currentSlide
    }

    /** The indices of the active slides (and indicators). */
    function ActiveIndices(): (r: set<int>)
      reads this
      requires Valid()
      ensures r == {currentSlide}
      ensures forall i :: i in r <==> InRange(i) && IsActive(i)
    {
      set i | 0 <= i < SlideCount && IsActive(i)
    }
  }
}

=== FILE: navigation.dfy ===
/**
 * The category selection of the navigation bar: the root categories, the
 * categories and the sale collection found by handle aliases, the subcategories
 * whose handle contains one of several words, and the gender menu that lists up
 * to six named subcategories in a fixed order followed by at most three others.
 *
 * Loading the categories and collections is not part of this module: they are
 * parameters.
 */
module Navigation {
  import opened Wrappers
  import opened Strings
  import opened Seqs

  /** A store category; `handle`, `parentCategoryId` and `children` may be absent. */
  datatype Category = Category(
    id: string,
    name: string,
    handle: Option<string>,
    parentCategoryId: Option<string>,
    children: Option<seq<Category>>)

  datatype Collection = Collection(id: string, title: string, handle: string)

  // ---------------------------------------------------------------------------
  // Root categories and alias lookups
  // ---------------------------------------------------------------------------

  /** `!cat.parent_category_id`: no parent, or an empty parent id. */
  predicate IsRoot(c: Category)
  {
    !(c.parentCategoryId.Some? && c.parentCategoryId.value != "")
  }

  /** `mainCategories`: the root categories, in their original order. */
  function MainCategories(categories: seq<Category>): (roots: seq<Category>)
    ensures IsSubsequence(roots, categories)
    ensures forall i :: 0 <= i < |roots| ==> IsRoot(roots[i])
    ensures forall i :: 0 <= i < |categories| && IsRoot(categories[i]) ==> categories[i] in roots
    ensures forall i :: 0 <= i < |categories| ==>
              multiset(roots)[categories[i]] == if IsRoot(categories[i]) then multiset(categories)[categories[i]] else 0
  {
    Filter(categories, IsRoot)
  }

  const MenHandles := ["men", "hombre", "hombres"]
  const WomenHandles := ["women", "mujer", "mujeres"]
  const ShoesHandles := ["zapatillas", "shoes", "calzado"]
  const SpikesHandles := ["zapatillas-clavos", "spikes", "track-shoes", "clavos"]
  const SaleHandles := ["sale", "ofertas", "descuentos"]

  /** The handle equals one of the aliases exactly. */
  predicate HasAliasHandle(c: Category, aliases: seq<string>)
  {
    c.handle.Some? && c.handle.value in aliases
  }

  /** The first category whose handle is one of `aliases`, or none. */
  function CategoryByAlias(categories: seq<Category>, aliases: seq<string>): (r: Option<Category>)
    ensures r.None? <==> forall i :: 0 <= i < |categories| ==> !HasAliasHandle(categories[i], aliases)
    ensures r.Some? ==> exists i :: 0 <= i < |categories| && categories[i] == r.value &&
                                    HasAliasHandle(categories[i], aliases) &&
                                    forall j :: 0 <= j < i ==> !HasAliasHandle(categories[j], aliases)
  {
    Find(categories, c => HasAliasHandle(c, aliases))
  }

  /** `menCategory`. */
  function MenCategory(categories: seq<Category>): (r: Option<Category>)
    ensures r.Some? ==> r.value in categories && r.value.handle in [Some("men"), Some("hombre"), Some("hombres")]
    ensures r.None? <==> forall i :: 0 <= i < |categories| ==> !HasAliasHandle(categories[i], MenHandles)
    ensures r.Some? ==> exists i :: 0 <= i < |categories| && categories[i] == r.value &&
                                    forall j :: 0 <= j < i ==> !HasAliasHandle(categories[j], MenHandles)
  {
    CategoryByAlias(categories, MenHandles)
  }

  /** `womenCategory`. */
  function WomenCategory(categories: seq<Category>): (r: Option<Category>)
    ensures r.Some? ==> r.value in categories && r.value.handle in [Some("women"), Some("mujer"), Some("mujeres")]
    ensures r.None? <==> forall i :: 0 <= i < |categories| ==> !HasAliasHandle(categories[i], WomenHandles)
    ensures r.Some? ==> exists i :: 0 <= i < |categories| && categories[i] == r.value &&
                                    forall j :: 0 <= j < i ==> !HasAliasHandle(categories[j], WomenHandles)
  {
    CategoryByAlias(categories, WomenHandles)
  }

  /** `shoesCategory`. */
  function ShoesCategory(categories: seq<Category>): (r: Option<Category>)
    ensures r.Some? ==> r.value in categories && r.value.handle in [Some("zapatillas"), Some("shoes"), Some("calzado")]
    ensures r.None? <==> forall i :: 0 <= i < |categories| ==> !HasAliasHandle(categories[i], ShoesHandles)
    ensures r.Some? ==> exists i :: 0 <= i < |categories| && categories[i] == r.value &&
                                    forall j :: 0 <= j < i ==> !HasAliasHandle(categories[j], ShoesHandles)
  {
    CategoryByAlias(categories, ShoesHandles)
  }

  /** `spikesCategory`. */
  function SpikesCategory(categories: seq<Category>): (r: Option<Category>)
    ensures r.Some? ==> r.value in categories &&
                        r.value.handle in [Some("zapatillas-clavos"), Some("spikes"), Some("track-shoes"), Some("clavos")]
    ensures r.None? <==> forall i :: 0 <= i < |categories| ==> !HasAliasHandle(categories[i], SpikesHandles)
    ensures r.Some? ==> exists i :: 0 <= i < |categories| && categories[i] == r.value &&
                                    forall j :: 0 <= j < i ==> !HasAliasHandle(categories[j], SpikesHandles)
  {
    CategoryByAlias(categories, SpikesHandles)
  }

  /** `saleCollection`: the first collection whose handle is a sale alias. */
  function SaleCollection(collections: seq<Collection>): (r: Option<Collection>)
    ensures r.None? <==> forall i :: 0 <= i < |collections| ==> collections[i].handle !in SaleHandles
    ensures r.Some? ==> exists i :: 0 <= i < |collections| && collections[i] == r.value &&
                                    r.value.handle in ["sale", "ofertas", "descuentos"] &&
                                    forall j :: 0 <= j < i ==> collections[j].handle !in SaleHandles
  {
    Find(collections, (c: Collection) => c.handle in SaleHandles)
  }

  // ---------------------------------------------------------------------------
  // Substring matching
  // ---------------------------------------------------------------------------

  /** `handles.some(h => sub.handle?.includes(h))`. */
  predicate HandleContainsAny(c: Category, words: seq<string>)
  {
    c.handle.Some? && exists w :: w in words && Contains(c.handle.value, w)
  }

  /** `getSubcategoriesByHandles`. */
  function GetSubcategoriesByHandles(parent: Option<Category>, handles: seq<string>): (r: seq<Category>)
    ensures parent.None? || parent.value.children.None? ==> r == []
    ensures parent.Some? && parent.value.children.Some? ==>
              && IsSubsequence(r, parent.value.children.value)
              && (forall i :: 0 <= i < |r| ==> HandleContainsAny(r[i], handles))
              && (forall i :: 0 <= i < |parent.value.children.value| &&
                              HandleContainsAny(parent.value.children.value[i], handles) ==>
                                parent.value.children.value[i] in r)
              && (forall i :: 0 <= i < |parent.value.children.value| ==>
                    var child := parent.value.children.value[i];
                    multiset(r)[child] ==
                      if HandleContainsAny(child, handles) then multiset(parent.value.children.value)[child] else 0)
  {
    if parent.None? || parent.value.children.None? then []
    else Filter(parent.value.children.value, c => HandleContainsAny(c, handles))
  }

  // ---------------------------------------------------------------------------
  // The gender menu
  // ---------------------------------------------------------------------------

  const ShoesWords := ["zapatillas", "shoes"]
  const SpikesWords := ["clavos", "spikes", "track"]
  const ShirtsWords := ["poleras", "shirts", "camisetas"]
  const PantsWords := ["pantalones", "pants"]
  const ShortsWords := ["shorts"]
  const AccessoriesWords := ["accesorios", "accessories"]

  /** The number of named buckets. */
  const NamedBuckets := 6

  /** At most this many further children follow the named ones. */
  const MaxExtras := 3

  /** The first child whose handle contains one of the bucket's words. */
  function Pick(children: seq<Category>, words: seq<string>): (r: Option<Category>)
    ensures r.None? <==> forall i :: 0 <= i < |children| ==> !HandleContainsAny(children[i], words)
    ensures r.Some? ==> exists i :: 0 <= i < |children| && children[i] == r.value &&
                                    HandleContainsAny(children[i], words) &&
                                    forall j :: 0 <= j < i ==> !HandleContainsAny(children[j], words)
  {
    Find(children, c => HandleContainsAny(c, words))
  }

  /** A pick as the push it causes: nothing, or that one child. */
  function OptionSeq(o: Option<Category>): (r: seq<Category>)
    ensures |r| <= 1
    ensures forall x :: x in r <==> o == Some(x)
  {
    match o
    case None => []
    case Some(x) => [x]
  }

  /** One bucket's contribution to the menu: its pick, if it found one. */
  function PickSeq(children: seq<Category>, words: seq<string>): (r: seq<Category>)
    ensures |r| <= 1
    ensures forall x :: x in r ==> x in children && HandleContainsAny(x, words)
    ensures r == [] <==> forall i :: 0 <= i < |children| ==> !HandleContainsAny(children[i], words)
  {
    OptionSeq(Pick(children, words))
  }

  /** The picks of the buckets that found a child, in the order shoes, spikes, shirts, pants, shorts, accessories. */
  function NamedPicks(children: seq<Category>): (r: seq<Category>)
    ensures |r| <= NamedBuckets
    ensures forall x :: x in r ==> x in children
  {
    var shoes := PickSeq(children, ShoesWords);
    var spikes := PickSeq(children, SpikesWords);
    var shirts := PickSeq(children, ShirtsWords);
    var pants := PickSeq(children, PantsWords);
    var shorts := PickSeq(children, ShortsWords);
    var accessories := PickSeq(children, AccessoriesWords);
    shoes + spikes + shirts + pants + shorts + accessories
  }

  /** `sub.id`, the key the menu compares children by. */
  function IdOf(c: Category): string
  {
    c.id
  }

  /** The children not already listed by id, in their original order. */
  function Others(children: seq<Category>, includedIds: seq<string>): (r: seq<Category>)
    ensures IsSubsequence(r, children)
    ensures forall i :: 0 <= i < |r| ==> r[i].id !in includedIds
    ensures forall i :: 0 <= i < |children| && children[i].id !in includedIds ==> children[i] in r
    ensures forall i :: 0 <= i < |children| ==>
              multiset(r)[children[i]] == if children[i].id !in includedIds then multiset(children)[children[i]] else 0
  {
    Filter(children, (c: Category) => c.id !in includedIds)
  }

  /** One `find` followed by `if (found) subcategories.push(found)`. */
  method PushPick(subcategories: seq<Category>, children: seq<Category>, words: seq<string>)
    returns (r: seq<Category>)
    ensures r == subcategories + PickSeq(children, words)
  {
    r := subcategories;
    var found := Pick(children, words);
    if found.Some? {
      r := r + [found.value];
    }
  }

  /** The six `find`s and conditional `push`es, in the order shoes, spikes, shirts, pants, shorts, accessories. */
  method CollectNamedPicks(children: seq<Category>) returns (subcategories: seq<Category>)
    ensures subcategories == NamedPicks(children)
  {
    subcategories := [];
    subcategories := PushPick(subcategories, children, ShoesWords);
    assert subcategories == PickSeq(children, ShoesWords);
    subcategories := PushPick(subcategories, children, SpikesWords);
    subcategories := PushPick(subcategories, children, ShirtsWords);
    subcategories := PushPick(subcategories, children, PantsWords);
    subcategories := PushPick(subcategories, children, ShortsWords);
    subcategories := PushPick(subcategories, children, AccessoriesWords);
  }

  /**
   * `createGenderSubcategories`: the named picks in the order shoes, spikes,
   * shirts, pants, shorts, accessories, then at most three other children.
   */
  method CreateGenderSubcategories(gender: Option<Category>) returns (r: seq<Category>)
    ensures gender.None? || gender.value.children.None? ==> r == []
    ensures gender.Some? && gender.value.children.Some? ==>
              var children := gender.value.children.value;
              var picks := NamedPicks(children);
              && r == picks + Take(Others(children, Map(picks, IdOf)), MaxExtras)
              && |r| <= NamedBuckets + MaxExtras
              && forall x :: x in r ==> x in children
  {
    if gender.None? || gender.value.children.None? {
      return [];
    }
    var children := gender.value.children.value;
    var subcategories := CollectNamedPicks(children);
    var includedIds := Map(subcategories, IdOf);
    var others := Others(children, includedIds);
    r := subcategories + Take(others, MaxExtras);
    MenuEntriesAreChildren(children, subcategories);
  }

  /** Picks drawn from the children, followed by the extras, stay within the children and within nine entries. */
  lemma MenuEntriesAreChildren(children: seq<Category>, picks: seq<Category>)
    requires |picks| <= NamedBuckets
    requires forall x :: x in picks ==> x in children
    ensures var menu := picks + Take(Others(children, Map(picks, IdOf)), MaxExtras);
            && |menu| <= NamedBuckets + MaxExtras
            && forall x :: x in menu ==> x in children
  {
    var others := Others(children, Map(picks, IdOf));
    var extras := Take(others, MaxExtras);
    PrefixOfSubsequence(others, children, |extras|);
    SubsequenceElements(extras, children);
  }

  /** The menu's extras after any picks: at most three, none sharing an id with a pick, in their original order. */
  lemma {:induction false} ExtrasAreUnpickedChildren(children: seq<Category>, picks: seq<Category>)
    ensures var extras := Take(Others(children, Map(picks, IdOf)), MaxExtras);
            && |extras| <= MaxExtras
            && IsSubsequence(extras, children)
            && (forall i :: 0 <= i < |extras| ==> extras[i].id !in Map(picks, IdOf))
            && (|extras| < MaxExtras ==>
                  forall i :: 0 <= i < |children| && children[i].id !in Map(picks, IdOf) ==> children[i] in extras)
  {
    var others := Others(children, Map(picks, IdOf));
    var extras := Take(others, MaxExtras);
    PrefixOfSubsequence(others, children, |extras|);
  }
}

=== FILE: paypal.dfy ===
/**
 * The PayPal payment provider of the storefront: option validation, the
 * choice of gateway host, the mapping of PayPal order statuses to payment
 * statuses, the rendering of amounts, and how each lifecycle operation
 * reshapes the payment session's `data` record.
 *
 * The HTTP exchanges are not performed here. Each gateway-backed operation
 * receives what the gateway did as an `Exchange`: the reply to the token
 * request and the reply to the one order request that follows it. Each
 * operation answers with the provider's response and the list of requests it
 * issued, so that "no gateway call" and "what was sent" can be stated.
 */
module PayPal {
  import opened Wrappers
  import opened Strings

  const SandboxUrl := "https://api.sandbox.paypal.com"
  const LiveUrl := "https://api.paypal.com"

  // ---------------------------------------------------------------------------
  // JavaScript values as the provider sees them
  // ---------------------------------------------------------------------------

  /** A JSON-like JavaScript value, as found in session data and gateway replies. */
  datatype Value =
    | Undefined
    | Null
    | Bool(b: bool)
    | Num(n: int)
    | Str(s: string)
    | Obj(fields: map<string, Value>)

  /** JavaScript truthiness, used by `!x` and `x ? … : …`. */
  predicate Truthy(v: Value)
  {
    match v
    case Undefined => false
    case Null => false
    case Bool(b) => b
    case Num(n) => n != 0
    case Str(s) => s != ""
    case Obj(_) => true
  }

  /** A plain object: the session `data` record, or a parsed reply body. */
  type Data = map<string, Value>

  /** `obj.key`: an absent key reads as `undefined`. */
  function Get(d: Data, key: string): Value
  {
    if key in d then d[key] else Undefined
  }

  /** `input.data?.key`: `undefined` when the data record itself is absent. */
  function Field(data: Option<Data>, key: string): Value
  {
    match data
    case None => Undefined
    case Some(d) => Get(d, key)
  }

  /** The keys `{ ...input.data }` copies: none when the data record is absent. */
  function Spread(data: Option<Data>): Data
  {
    match data
    case None => map[]
    case Some(d) => d
  }

  /** `after` is `before` with exactly the keys `added` set; every other key keeps its value. */
  ghost predicate ExtendsWith(before: Data, after: Data, added: set<string>)
  {
    && after.Keys == before.Keys + added
    && forall k :: k in before && k !in added ==> k in after && after[k] == before[k]
  }

  /** `${v}`: how a template literal renders a value into a request path. */
  function Render(v: Value): string
  {
    match v
    case Undefined => "undefined"
    case Null => "null"
    case Bool(b) => if b then "true" else "false"
    case Num(n) => if n < 0 then "-" + Decimal(-n) else Decimal(n)
    case Str(s) => s
    case Obj(_) => "[object Object]"
  }

  // ---------------------------------------------------------------------------
  // Options and the provider object
  // ---------------------------------------------------------------------------

  /** The untyped options bag the provider is registered with. */
  datatype Options = Options(clientId: Value, clientSecret: Value, sandbox: Value, authWebhookId: Value)

  const ClientIdRequired := "PayPal client_id is required"
  const ClientSecretRequired := "PayPal client_secret is required"

  /** Either the options pass, or `validateOptions` throws with this message. */
  datatype Validation = Accepted | Rejected(message: string)

  /** `validateOptions`: client_id is checked first, then client_secret; a falsy value counts as missing. */
  function ValidateOptions(options: Options): (r: Validation)
    ensures r == Rejected(ClientIdRequired) <==> !Truthy(options.clientId)
    ensures r == Rejected(ClientSecretRequired) <==> Truthy(options.clientId) && !Truthy(options.clientSecret)
    ensures r == Accepted <==> Truthy(options.clientId) && Truthy(options.clientSecret)
  {
    if !Truthy(options.clientId) then Rejected(ClientIdRequired)
    else if !Truthy(options.clientSecret) then Rejected(ClientSecretRequired)
    else Accepted
  }

  /** The gateway host: the sandbox exactly when the `sandbox` option is truthy. */
  function BaseUrl(sandbox: Value): (url: string)
    ensures url == SandboxUrl <==> Truthy(sandbox)
    ensures url == LiveUrl <==> !Truthy(sandbox)
  {
    if Truthy(sandbox) then SandboxUrl else LiveUrl
  }

  /** The provider object: both fields are set once by the constructor and never reassigned. */
  class PayPalPaymentProvider {
    const options: Options
    const apiUrl: string

    constructor (options: Options)
      ensures this.options == options
      ensures apiUrl == SandboxUrl <==> Truthy(options.sandbox)
      ensures apiUrl == LiveUrl <==> !Truthy(options.sandbox)
    {
      this.options := options;
      this.apiUrl := BaseUrl(options.sandbox);
    }

    /** The URL a request is sent to: always under the host fixed at construction. */
    function Url(r: Request): (u: string)
      ensures |apiUrl| < |u| && u[..|apiUrl|] == apiUrl && u[|apiUrl|..] == PathOf(r)
    {
      apiUrl + PathOf(r)
    }
  }

  // ---------------------------------------------------------------------------
  // Requests to the gateway and its replies
  // ---------------------------------------------------------------------------

  /** A request the provider sends; every request after the token one carries the bearer token. */
  datatype Request =
    | TokenRequest
    | CreateOrder(token: Value, referenceId: Value, currency: string, value: string)
    | GetOrder(token: Value, orderId: Value)
    | CaptureOrder(token: Value, orderId: Value)
    | RefundCapture(token: Value, captureId: Value, value: string, currencyCode: Value)

  function PathOf(r: Request): (p: string)
    ensures |p| > 0 && p[0] == '/'
  {
    match r
    case TokenRequest => "/v1/oauth2/token"
    case CreateOrder(_, _, _, _) => "/v2/checkout/orders"
    case GetOrder(_, id) => "/v2/checkout/orders/" + Render(id)
    case CaptureOrder(_, id) => "/v2/checkout/orders/" + Render(id) + "/capture"
    case RefundCapture(_, id, _, _) => "/v2/payments/captures/" + Render(id) + "/refund"
  }

  /** What one gateway request produced: a parsed body with its HTTP status, or a thrown error. */
  datatype Reply = Received(httpStatus: int, json: Data) | Thrown(message: string)

  /** The replies to the token request and to the order request that follows it. */
  datatype Exchange = Exchange(token: Reply, response: Reply)

  /** `data.access_token` of the token reply. */
  function AccessToken(tokenBody: Data): Value
  {
    Get(tokenBody, "access_token")
  }

  // ---------------------------------------------------------------------------
  // Amounts
  // ---------------------------------------------------------------------------

  /** `(cents / 100).toFixed(2)` for a whole number of cents: integer part, a point, two digits. */
  function FormatCents(cents: nat): (text: string)
    ensures |text| >= 4 && text[|text| - 3] == '.'
    ensures AllDigits(text[..|text| - 3]) && IsDigit(text[|text| - 2]) && IsDigit(text[|text| - 1])
    ensures text[0] == '0' ==> |text| == 4
  {
    var text := Decimal(cents / 100) + "." + [DigitChar(cents / 10 % 10), DigitChar(cents % 10)];
    assert text[..|text| - 3] == Decimal(cents / 100);
    text
  }

  /** Reads a two-decimal amount back into cents. */
  function ParseCents(text: string): Option<nat>
  {
    if |text| < 4 || text[|text| - 3] != '.' || !AllDigits(text[..|text| - 3])
       || !IsDigit(text[|text| - 2]) || !IsDigit(text[|text| - 1])
    then None
    else Some(ParseDecimal(text[..|text| - 3]) * 100 + DigitValue(text[|text| - 2]) * 10 + DigitValue(text[|text| - 1]))
  }

  lemma CentsDigits(cents: nat)
    ensures cents == cents / 100 * 100 + cents / 10 % 10 * 10 + cents % 10
  {
    var q := cents / 10;
    assert cents == q * 10 + cents % 10;
    assert q == q / 10 * 10 + q % 10;
    assert cents == q / 10 * 100 + q % 10 * 10 + cents % 10;
    assert cents / 100 == q / 10;
  }

  /** The amount sent to the gateway denotes exactly the cents the session holds. */
  lemma {:induction false} FormatCentsRoundTrip(cents: nat)
    ensures ParseCents(FormatCents(cents)) == Some(cents)
  {
    var text := FormatCents(cents);
    assert text[..|text| - 3] == Decimal(cents / 100);
    ParseDecimalInvertsDecimal(cents / 100);
    CentsDigits(cents);
  }

  // ---------------------------------------------------------------------------
  // Responses
  // ---------------------------------------------------------------------------

  /** The payment statuses the provider reports. */
  datatype PaymentStatus = Pending | Authorized | Captured | Canceled | Errored

  /** The `error` object of a failed operation; `detail` is the caught error, absent for a refusal. */
  datatype ProviderError = ProviderError(message: string, code: string, detail: Option<string>)

  /** The object an operation resolves to: `{ status?, data? }` or `{ error }`. */
  datatype Response =
    | Success(status: Option<PaymentStatus>, data: Option<Data>)
    | Failure(error: ProviderError)

  /** An operation's response together with the gateway requests it issued, in order. */
  datatype Outcome = Outcome(response: Response, requests: seq<Request>)

  /** `input.context` of initiate and update. */
  datatype PaymentContext = PaymentContext(amount: nat, currencyCode: Value, resourceId: Value)

  /** The `input` every operation receives: the session data, the context, and the refund amount. */
  datatype PaymentInput = PaymentInput(data: Option<Data>, context: PaymentContext, amount: nat)

  /** A thrown error turned into an error response by an operation's `catch`. */
  function Caught(message: string, code: string): Response
  {
    Failure(ProviderError(message, code, Some(message)))
  }

  const NotApprovedMessage := "Payment not approved by customer"

  /** The error V8 raises for `currency_code.toUpperCase()` when `currency_code` is not a string. */
  function ToUpperCaseError(v: Value): string
  {
    if v.Undefined? || v.Null? then "Cannot read properties of " + Render(v) + " (reading 'toUpperCase')"
    else "currency_code.toUpperCase is not a function"
  }

  // ---------------------------------------------------------------------------
  // Status
  // ---------------------------------------------------------------------------

  /** The `switch` on the PayPal order status. */
  function GatewayStatus(status: Value): (s: PaymentStatus)
    ensures s == Authorized <==> status == Str("APPROVED")
    ensures s == Captured <==> status == Str("COMPLETED")
    ensures s == Canceled <==> status == Str("CANCELLED")
    ensures s == Pending <==> status != Str("APPROVED") && status != Str("COMPLETED") && status != Str("CANCELLED")
    ensures s != Errored
  {
    if status == Str("APPROVED") then Authorized
    else if status == Str("COMPLETED") then Captured
    else if status == Str("CANCELLED") then Canceled
    else Pending
  }

  /** `getPaymentStatus`. */
  function GetPaymentStatus(input: PaymentInput, gw: Exchange): (o: Outcome)
    ensures Truthy(Field(input.data, "paypal_order_id")) && gw.token.Thrown? ==> o.requests == [TokenRequest]
    ensures o.response.Success? && o.response.data.None? && o.response.status.Some?
    ensures !Truthy(Field(input.data, "paypal_order_id")) ==> o.requests == [] && o.response.status == Some(Pending)
    ensures Truthy(Field(input.data, "paypal_order_id")) ==> o.requests != [] && o.requests[0] == TokenRequest
    ensures Truthy(Field(input.data, "paypal_order_id")) && gw.token.Received? ==>
              o.requests == [TokenRequest, GetOrder(AccessToken(gw.token.json), Field(input.data, "paypal_order_id"))]
    ensures o.response.status == Some(Errored) <==>
              Truthy(Field(input.data, "paypal_order_id")) && (gw.token.Thrown? || gw.response.Thrown?)
    ensures Truthy(Field(input.data, "paypal_order_id")) && gw.token.Received? && gw.response.Received? ==>
              o.response.status == Some(GatewayStatus(Get(gw.response.json, "status")))
  {
    var orderId := Field(input.data, "paypal_order_id");
    if !Truthy(orderId) then Outcome(Success(Some(Pending), None), [])
    else
      match gw.token
      case Thrown(_) => Outcome(Success(Some(Errored), None), [TokenRequest])
      case Received(_, t) =>
        var requests := [TokenRequest, GetOrder(AccessToken(t), orderId)];
        match gw.response
        case Thrown(_) => Outcome(Success(Some(Errored), None), requests)
        case Received(_, order) => Outcome(Success(Some(GatewayStatus(Get(order, "status"))), None), requests)
  }

  // ---------------------------------------------------------------------------
  // Initiate and update
  // ---------------------------------------------------------------------------

  /**
   * The order creation shared by `initiatePayment` and `updatePayment`: fetch a
   * token, send the amount and the upper-cased currency, and keep the new order id
   * with the original cents and currency code. `errorCode` is the operation's code.
   */
  function PlaceOrder(context: PaymentContext, gw: Exchange, errorCode: string): (o: Outcome)
    ensures gw.token.Thrown? ==> o.requests == [TokenRequest]
    ensures o.requests != [] && o.requests[0] == TokenRequest
    ensures gw.token.Received? && context.currencyCode.Str? ==>
              o.requests == [TokenRequest, CreateOrder(AccessToken(gw.token.json), context.resourceId,
                                                       ToUpper(context.currencyCode.s), FormatCents(context.amount))]
    ensures gw.token.Received? && !context.currencyCode.Str? ==> o.requests == [TokenRequest]
    ensures o.response.Success? <==> gw.token.Received? && context.currencyCode.Str? && gw.response.Received?
    ensures o.response.Failure? ==> o.response.error.code == errorCode && o.response.error.detail.Some?
    ensures gw.token.Thrown? ==> o.response == Caught(gw.token.message, errorCode)
    ensures gw.token.Received? && !context.currencyCode.Str? ==>
              o.response == Caught(ToUpperCaseError(context.currencyCode), errorCode)
    ensures gw.token.Received? && context.currencyCode.Str? && gw.response.Thrown? ==>
              o.response == Caught(gw.response.message, errorCode)
    ensures o.response.Success? ==>
              && o.response.status.None? && o.response.data.Some?
              && o.response.data.value.Keys == {"paypal_order_id", "amount", "currency_code"}
              && o.response.data.value["paypal_order_id"] == Get(gw.response.json, "id")
              && o.response.data.value["amount"] == Num(context.amount)
              && o.response.data.value["currency_code"] == context.currencyCode
  {
    match gw.token
    case Thrown(m) => Outcome(Caught(m, errorCode), [TokenRequest])
    case Received(_, t) =>
      if !context.currencyCode.Str? then
        Outcome(Caught(ToUpperCaseError(context.currencyCode), errorCode), [TokenRequest])
      else
        var request := CreateOrder(AccessToken(t), context.resourceId, ToUpper(context.currencyCode.s),
                                   FormatCents(context.amount));
        match gw.response
        case Thrown(m) => Outcome(Caught(m, errorCode), [TokenRequest, request])
        case Received(_, order) =>
          var data := map["paypal_order_id" := Get(order, "id"), "amount" := Num(context.amount),
                          "currency_code" := context.currencyCode];
          Outcome(Success(None, Some(data)), [TokenRequest, request])
  }

  /** `initiatePayment`. */
  function InitiatePayment(input: PaymentInput, gw: Exchange): (o: Outcome)
    ensures gw.token.Thrown? ==> o.requests == [TokenRequest]
    ensures o.requests != [] && o.requests[0] == TokenRequest
    ensures gw.token.Received? && !input.context.currencyCode.Str? ==> o.requests == [TokenRequest]
    ensures o.response.Success? <==> gw.token.Received? && input.context.currencyCode.Str? && gw.response.Received?
    ensures gw.token.Received? && input.context.currencyCode.Str? ==>
              o.requests == [TokenRequest, CreateOrder(AccessToken(gw.token.json), input.context.resourceId,
                                                       ToUpper(input.context.currencyCode.s),
                                                       FormatCents(input.context.amount))]
    ensures o.response.Failure? ==> o.response.error.code == "paypal_error" && o.response.error.detail.Some?
    ensures gw.token.Thrown? ==> o.response == Caught(gw.token.message, "paypal_error")
    ensures gw.token.Received? && !input.context.currencyCode.Str? ==>
              o.response == Caught(ToUpperCaseError(input.context.currencyCode), "paypal_error")
    ensures gw.token.Received? && input.context.currencyCode.Str? && gw.response.Thrown? ==>
              o.response == Caught(gw.response.message, "paypal_error")
    ensures o.response.Success? ==>
              && o.response.status.None? && o.response.data.Some?
              && o.response.data.value.Keys == {"paypal_order_id", "amount", "currency_code"}
              && o.response.data.value["paypal_order_id"] == Get(gw.response.json, "id")
              && o.response.data.value["amount"] == Num(input.context.amount)
              && o.response.data.value["currency_code"] == input.context.currencyCode
  {
    PlaceOrder(input.context, gw, "paypal_error")
  }

  /** `updatePayment`: always a fresh order, whatever order id the session already holds. */
  function UpdatePayment(input: PaymentInput, gw: Exchange): (o: Outcome)
    ensures gw.token.Thrown? ==> o.requests == [TokenRequest]
    ensures o.requests != [] && o.requests[0] == TokenRequest
    ensures gw.token.Received? && !input.context.currencyCode.Str? ==> o.requests == [TokenRequest]
    ensures o.response.Success? <==> gw.token.Received? && input.context.currencyCode.Str? && gw.response.Received?
    ensures gw.token.Received? && input.context.currencyCode.Str? ==>
              o.requests == [TokenRequest, CreateOrder(AccessToken(gw.token.json), input.context.resourceId,
                                                       ToUpper(input.context.currencyCode.s),
                                                       FormatCents(input.context.amount))]
    ensures o.response.Failure? ==> o.response.error.code == "paypal_update_error" && o.response.error.detail.Some?
    ensures gw.token.Thrown? ==> o.response == Caught(gw.token.message, "paypal_update_error")
    ensures gw.token.Received? && !input.context.currencyCode.Str? ==>
              o.response == Caught(ToUpperCaseError(input.context.currencyCode), "paypal_update_error")
    ensures gw.token.Received? && input.context.currencyCode.Str? && gw.response.Thrown? ==>
              o.response == Caught(gw.response.message, "paypal_update_error")
    ensures o.response.Success? ==>
              && o.response.status.None? && o.response.data.Some?
              && o.response.data.value.Keys == {"paypal_order_id", "amount", "currency_code"}
              && o.response.data.value["paypal_order_id"] == Get(gw.response.json, "id")
              && o.response.data.value["amount"] == Num(input.context.amount)
              && o.response.data.value["currency_code"] == input.context.currencyCode
  {
    PlaceOrder(input.context, gw, "paypal_update_error")
  }

  /** The session's previous data, order id included, has no influence on an update. */
  lemma UpdateIgnoresPreviousData(input: PaymentInput, previous: Option<Data>, gw: Exchange)
    ensures UpdatePayment(input, gw) == UpdatePayment(input.(data := previous), gw)
  {
  }

  // ---------------------------------------------------------------------------
  // Authorize
  // ---------------------------------------------------------------------------

  /** `authorizePayment`: succeeds only when the gateway reports the order as "APPROVED". */
  function AuthorizePayment(input: PaymentInput, gw: Exchange): (o: Outcome)
    ensures gw.token.Thrown? ==> o.requests == [TokenRequest]
    ensures o.requests != [] && o.requests[0] == TokenRequest
    ensures gw.token.Received? ==>
              o.requests == [TokenRequest, GetOrder(AccessToken(gw.token.json), Field(input.data, "paypal_order_id"))]
    ensures o.response.Success? <==>
              gw.token.Received? && gw.response.Received? && Get(gw.response.json, "status") == Str("APPROVED")
    ensures o.response.Success? ==>
              && o.response.status == Some(Authorized) && o.response.data.Some?
              && ExtendsWith(Spread(input.data), o.response.data.value, {"paypal_status", "authorized"})
              && o.response.data.value["paypal_status"] == Str("APPROVED")
              && o.response.data.value["authorized"] == Bool(true)
    ensures o.response.Failure? && gw.token.Received? && gw.response.Received? ==>
              o.response.error == ProviderError(NotApprovedMessage, "paypal_not_approved", None)
    ensures o.response.Failure? && !(gw.token.Received? && gw.response.Received?) ==>
              o.response.error.code == "paypal_authorization_error" && o.response.error.detail.Some?
    ensures gw.token.Thrown? ==> o.response == Caught(gw.token.message, "paypal_authorization_error")
    ensures gw.token.Received? && gw.response.Thrown? ==>
              o.response == Caught(gw.response.message, "paypal_authorization_error")
  {
    var orderId := Field(input.data, "paypal_order_id");
    match gw.token
    case Thrown(m) => Outcome(Caught(m, "paypal_authorization_error"), [TokenRequest])
    case Received(_, t) =>
      var requests := [TokenRequest, GetOrder(AccessToken(t), orderId)];
      match gw.response
      case Thrown(m) => Outcome(Caught(m, "paypal_authorization_error"), requests)
      case Received(_, order) =>
        var status := Get(order, "status");
        if status != Str("APPROVED") then
          Outcome(Failure(ProviderError(NotApprovedMessage, "paypal_not_approved", None)), requests)
        else
          Outcome(Success(Some(Authorized), Some(Spread(input.data)["paypal_status" := status]["authorized" := Bool(true)])),
                  requests)
  }

  /** Given the same gateway replies, authorization succeeds exactly when the status query reports `authorized`. */
  lemma AuthorizeAgreesWithStatus(input: PaymentInput, gw: Exchange)
    requires Truthy(Field(input.data, "paypal_order_id"))
    ensures AuthorizePayment(input, gw).response.Success? <==>
            GetPaymentStatus(input, gw).response.status == Some(Authorized)
  {
  }

  // ---------------------------------------------------------------------------
  // Cancel, delete, retrieve, webhook: no gateway call
  // ---------------------------------------------------------------------------

  /** `cancelPayment`: marks the session cancelled locally. */
  function CancelPayment(input: PaymentInput): (o: Outcome)
    ensures o.requests == []
    ensures o.response.Success? && o.response.status.None? && o.response.data.Some?
    ensures ExtendsWith(Spread(input.data), o.response.data.value, {"cancelled"})
    ensures o.response.data.value["cancelled"] == Bool(true)
  {
    Outcome(Success(None, Some(Spread(input.data)["cancelled" := Bool(true)])), [])
  }

  /** `deletePayment`: the same as cancelling. */
  function DeletePayment(input: PaymentInput): (o: Outcome)
    ensures o == CancelPayment(input)
    ensures o.requests == [] && o.response.Success? && o.response.data.Some?
    ensures ExtendsWith(Spread(input.data), o.response.data.value, {"cancelled"})
  {
    CancelPayment(input)
  }

  /** `retrievePayment`: hands the stored data back as it is. */
  function RetrievePayment(input: PaymentInput): (o: Outcome)
    ensures o.requests == []
    ensures o.response.Success? && o.response.status.None? && o.response.data == input.data
  {
    Outcome(Success(None, input.data), [])
  }

  /** The `{ action, data }` pair a webhook maps to. */
  datatype WebhookAction = WebhookAction(action: Value, data: Data)

  /**
   * `getWebhookActionAndData`: the action is the payload's `event_type` and the payload
   * is passed on untouched. `None` stands for the TypeError thrown when there is no payload.
   */
  function GetWebhookActionAndData(data: Option<Data>): (r: Option<WebhookAction>)
    ensures r.None? <==> data.None?
    ensures r.Some? ==> r.value.data == data.value && r.value.action == Get(data.value, "event_type")
  {
    match data
    case None => None
    case Some(d) => Some(WebhookAction(Get(d, "event_type"), d))
  }

  // ---------------------------------------------------------------------------
  // Capture and refund
  // ---------------------------------------------------------------------------

  /** `capturePayment`, as written: any reply body counts as a capture. */
  function CapturePayment(input: PaymentInput, gw: Exchange): (o: Outcome)
    ensures gw.token.Thrown? ==> o.requests == [TokenRequest]
    ensures o.requests != [] && o.requests[0] == TokenRequest
    ensures gw.token.Received? ==>
              o.requests == [TokenRequest, CaptureOrder(AccessToken(gw.token.json), Field(input.data, "paypal_order_id"))]
    ensures o.response.Success? <==> gw.token.Received? && gw.response.Received?
    ensures o.response.Failure? ==> o.response.error.code == "paypal_capture_error" && o.response.error.detail.Some?
    ensures gw.token.Thrown? ==> o.response == Caught(gw.token.message, "paypal_capture_error")
    ensures gw.token.Received? && gw.response.Thrown? ==> o.response == Caught(gw.response.message, "paypal_capture_error")
    ensures o.response.Success? ==>
              && o.response.status.None? && o.response.data.Some?
              && ExtendsWith(Spread(input.data), o.response.data.value, {"paypal_capture_id", "captured"})
              && o.response.data.value["paypal_capture_id"] == Get(gw.response.json, "id")
              && o.response.data.value["captured"] == Bool(true)
  {
    var orderId := Field(input.data, "paypal_order_id");
    match gw.token
    case Thrown(m) => Outcome(Caught(m, "paypal_capture_error"), [TokenRequest])
    case Received(_, t) =>
      var requests := [TokenRequest, CaptureOrder(AccessToken(t), orderId)];
      match gw.response
      case Thrown(m) => Outcome(Caught(m, "paypal_capture_error"), requests)
      case Received(_, capture) =>
        var data := Spread(input.data)["paypal_capture_id" := Get(capture, "id")]["captured" := Bool(true)];
        Outcome(Success(None, Some(data)), requests)
  }

  /** `refundPayment`, as written: any reply body counts as a refund of `input.amount`. */
  function RefundPayment(input: PaymentInput, gw: Exchange): (o: Outcome)
    ensures gw.token.Thrown? ==> o.requests == [TokenRequest]
    ensures o.requests != [] && o.requests[0] == TokenRequest
    ensures gw.token.Received? ==>
              o.requests == [TokenRequest, RefundCapture(AccessToken(gw.token.json), Field(input.data, "paypal_capture_id"),
                                                         FormatCents(input.amount), Field(input.data, "currency_code"))]
    ensures o.response.Success? <==> gw.token.Received? && gw.response.Received?
    ensures o.response.Failure? ==> o.response.error.code == "paypal_refund_error" && o.response.error.detail.Some?
    ensures gw.token.Thrown? ==> o.response == Caught(gw.token.message, "paypal_refund_error")
    ensures gw.token.Received? && gw.response.Thrown? ==> o.response == Caught(gw.response.message, "paypal_refund_error")
    ensures o.response.Success? ==>
              && o.response.status.None? && o.response.data.Some?
              && ExtendsWith(Spread(input.data), o.response.data.value, {"refund_id", "refunded_amount"})
              && o.response.data.value["refund_id"] == Get(gw.response.json, "id")
              && o.response.data.value["refunded_amount"] == Num(input.amount)
  {
    var captureId := Field(input.data, "paypal_capture_id");
    match gw.token
    case Thrown(m) => Outcome(Caught(m, "paypal_refund_error"), [TokenRequest])
    case Received(_, t) =>
      var requests := [TokenRequest, RefundCapture(AccessToken(t), captureId, FormatCents(input.amount),
                                                   Field(input.data, "currency_code"))];
      match gw.response
      case Thrown(m) => Outcome(Caught(m, "paypal_refund_error"), requests)
      case Received(_, refund) =>
        var data := Spread(input.data)["refund_id" := Get(refund, "id")]["refunded_amount" := Num(input.amount)];
        Outcome(Success(None, Some(data)), requests)
  }

  /** A reply the gateway answered with a 2xx status (`response.ok`). */
  predicate IsOk(r: Reply)
  {
    r.Received? && 200 <= r.httpStatus < 300
  }

  /** A gateway refusal: the gateway answered, but not with a 2xx status. */
  predicate IsRefusal(gw: Exchange)
  {
    gw.token.Received? && gw.response.Received? && !(IsOk(gw.token) && IsOk(gw.response))
  }

  /** Neither reply's HTTP status is read: a refused capture (HTTP 422, no capture id) is reported as captured. */
  lemma CaptureReportsRefusalAsCaptured(input: PaymentInput, gw: Exchange)
    requires IsRefusal(gw)
    ensures CapturePayment(input, gw).response.Success?
    ensures CapturePayment(input, gw).response.data.value["captured"] == Bool(true)
  {
  }

  /** The same for refunds: a refused refund is reported with `refunded_amount` set. */
  lemma RefundReportsRefusalAsRefunded(input: PaymentInput, gw: Exchange)
    requires IsRefusal(gw)
    ensures RefundPayment(input, gw).response.Success?
    ensures RefundPayment(input, gw).response.data.value["refunded_amount"] == Num(input.amount)
  {
  }

  /** A concrete case: the gateway refuses to capture an order the buyer never approved. */
  lemma UnapprovedCaptureIsReportedCaptured()
    ensures var o := CapturePayment(
              PaymentInput(Some(map["paypal_order_id" := Str("ORD-1")]), PaymentContext(5000, Str("usd"), Str("cart_1")), 0),
              Exchange(Received(200, map["access_token" := Str("A21")]),
                       Received(422, map["name" := Str("UNPROCESSABLE_ENTITY")])));
            && o.response.Success?
            && o.response.data == Some(map["paypal_order_id" := Str("ORD-1"), "paypal_capture_id" := Undefined,
                                           "captured" := Bool(true)])
  {
  }

  const RefusedMessage := "PayPal refused the request"

  /** `capturePayment` with the refusal turned into the operation's error, as its `catch` intends. */
  function CapturePaymentChecked(input: PaymentInput, gw: Exchange): (o: Outcome)
    ensures o.requests == CapturePayment(input, gw).requests
    ensures o.response.Success? <==> IsOk(gw.token) && IsOk(gw.response)
    ensures o.response.Success? ==> o == CapturePayment(input, gw)
    ensures o.response.Failure? ==> o.response.error.code == "paypal_capture_error"
  {
    var o := CapturePayment(input, gw);
    if IsRefusal(gw) then Outcome(Failure(ProviderError(RefusedMessage, "paypal_capture_error", None)), o.requests)
    else o
  }

  /** `refundPayment` with the refusal turned into the operation's error. */
  function RefundPaymentChecked(input: PaymentInput, gw: Exchange): (o: Outcome)
    ensures o.requests == RefundPayment(input, gw).requests
    ensures o.response.Success? <==> IsOk(gw.token) && IsOk(gw.response)
    ensures o.response.Success? ==> o == RefundPayment(input, gw)
    ensures o.response.Failure? ==> o.response.error.code == "paypal_refund_error"
  {
    var o := RefundPayment(input, gw);
    if IsRefusal(gw) then Outcome(Failure(ProviderError(RefusedMessage, "paypal_refund_error", None)), o.requests)
    else o
  }
}

=== FILE: seqs.dfy ===
/**
 * The JavaScript array operations the storefront relies on (`filter`, `find`,
 * `map`, `slice(0, n)`), each with the property callers depend on.
 */
module Seqs {
  import opened Wrappers

  /** `r` is obtained from `s` by deleting elements, keeping the order of the rest. */
  ghost predicate IsSubsequence<T>(r: seq<T>, s: seq<T>)
    decreases |s|
  {
    if r == [] then true
    else if s == [] then false
    else (r[0] == s[0] && IsSubsequence(r[1..], s[1..])) || IsSubsequence(r, s[1..])
  }

  lemma {:induction false} SubsequenceOfTail<T>(r: seq<T>, s: seq<T>)
    requires s != [] && IsSubsequence(r, s[1..])
    ensures IsSubsequence(r, s)
  {
  }

  /** A prefix of a subsequence is still a subsequence. */
  lemma {:induction false} PrefixOfSubsequence<T>(r: seq<T>, s: seq<T>, k: nat)
    requires IsSubsequence(r, s) && k <= |r|
    ensures IsSubsequence(r[..k], s)
    decreases |s|
  {
    if k == 0 || r == [] {
      assert r[..k] == [];
    } else if s == [] {
      assert false;
    } else if r[0] == s[0] && IsSubsequence(r[1..], s[1..]) {
      PrefixOfSubsequence(r[1..], s[1..], k - 1);
      assert r[..k][1..] == r[1..][..k - 1];
    } else {
      PrefixOfSubsequence(r, s[1..], k);
    }
  }

  /** Every element of a subsequence is an element of the sequence. */
  lemma {:induction false} SubsequenceElements<T>(r: seq<T>, s: seq<T>)
    requires IsSubsequence(r, s)
    ensures forall x :: x in r ==> x in s
    decreases |s|
  {
    if r == [] {
    } else if s == [] {
      assert false;
    } else if r[0] == s[0] && IsSubsequence(r[1..], s[1..]) {
      SubsequenceElements(r[1..], s[1..]);
      forall x | x in r ensures x in s {
        if x != r[0] {
          assert x in r[1..];
        }
      }
    } else {
      SubsequenceElements(r, s[1..]);
    }
  }

  /** `Array.prototype.filter`: the elements satisfying `p`, in their original order. */
  function Filter<T>(s: seq<T>, p: T -> bool): (r: seq<T>)
    ensures IsSubsequence(r, s)
    ensures |r| <= |s|
    ensures forall i :: 0 <= i < |r| ==> p(r[i])
    ensures forall i :: 0 <= i < |s| && p(s[i]) ==> s[i] in r
    ensures forall i :: 0 <= i < |s| ==> multiset(r)[s[i]] == if p(s[i]) then multiset(s)[s[i]] else 0
  {
    if s == [] then []
    else
      var rest := Filter(s[1..], p);
      var r := if p(s[0]) then [s[0]] + rest else rest;
      assert forall i :: 1 <= i < |s| ==> s[i] == s[1..][i - 1];
      FilterCountStep(s, p, rest, r);
      if p(s[0]) then r
      else
        SubsequenceOfTail(rest, s);
        r
  }

  /** One step of `Filter`: keeping or dropping the head keeps every value's count right. */
  lemma FilterCountStep<T>(s: seq<T>, p: T -> bool, rest: seq<T>, r: seq<T>)
    requires |s| > 0
    requires IsSubsequence(rest, s[1..])
    requires forall i :: 0 <= i < |s[1..]| ==>
               multiset(rest)[s[1..][i]] == if p(s[1..][i]) then multiset(s[1..])[s[1..][i]] else 0
    requires r == if p(s[0]) then [s[0]] + rest else rest
    ensures forall i :: 0 <= i < |s| ==> multiset(r)[s[i]] == if p(s[i]) then multiset(s)[s[i]] else 0
  {
    assert s == [s[0]] + s[1..];
    assert multiset(s) == multiset{s[0]} + multiset(s[1..]);
    SubsequenceElements(rest, s[1..]);
    forall i | 0 <= i < |s|
      ensures multiset(r)[s[i]] == if p(s[i]) then multiset(s)[s[i]] else 0
    {
      if i > 0 {
        assert s[i] == s[1..][i - 1];
      } else if s[0] !in s[1..] {
        assert s[0] !in rest;
      } else {
        var k :| 0 <= k < |s[1..]| && s[1..][k] == s[0];
      }
    }
  }

  /** The index of the first element satisfying `p`, if there is one. */
  function FindIndex<T>(s: seq<T>, p: T -> bool): (r: Option<nat>)
    ensures r.Some? ==> r.value < |s| && p(s[r.value])
    ensures r.Some? ==> forall j :: 0 <= j < r.value ==> !p(s[j])
    ensures r.None? <==> forall j :: 0 <= j < |s| ==> !p(s[j])
  {
    if s == [] then None
    else if p(s[0]) then Some(0)
    else
      match FindIndex(s[1..], p)
      case None =>
        assert forall j :: 1 <= j < |s| ==> s[j] == s[1..][j - 1];
        None
      case Some(i) =>
        assert forall j :: 1 <= j <= i + 1 ==> s[j] == s[1..][j - 1];
        Some(i + 1)
  }

  /** `Array.prototype.find`: the first element satisfying `p`, or nothing. */
  function Find<T>(s: seq<T>, p: T -> bool): (r: Option<T>)
    ensures r.None? <==> forall j :: 0 <= j < |s| ==> !p(s[j])
    ensures r.Some? ==> exists i :: 0 <= i < |s| && s[i] == r.value && p(s[i]) &&
                                    forall j :: 0 <= j < i ==> !p(s[j])
  {
    match FindIndex(s, p)
    case None => None
    case Some(i) => Some(s[i])
  }

  /** `Array.prototype.map`: `f` applied to every element, in order. */
  function Map<T, U>(s: seq<T>, f: T -> U): (r: seq<U>)
    ensures |r| == |s|
    ensures forall i :: 0 <= i < |s| ==> r[i] == f(s[i])
  {
    seq(|s|, i requires 0 <= i < |s| => f(s[i]))
  }

  /** `slice(0, n)`: at most the first `n` elements. */
  function Take<T>(s: seq<T>, n: nat): (r: seq<T>)
    ensures |r| == if n < |s| then n else |s|
    ensures r == s[..|r|]
  {
    if n < |s| then s[..n] else s
  }
}

=== FILE: strings.dfy ===
/**
 * The string operations of JavaScript the storefront uses: `includes`,
 * `toUpperCase`, and the decimal rendering of non-negative integers.
 */
module Strings {

  /** `sub` occurs in `s` starting at position `i`. */
  ghost predicate OccursAt(s: string, sub: string, i: int)
  {
    0 <= i && i + |sub| <= |s| && s[i..i + |sub|] == sub
  }

  /** `String.prototype.includes`: `sub` occurs somewhere in `s` (the empty string always does). */
  function Contains(s: string, sub: string): bool
    decreases |s|
  {
    if |sub| > |s| then false
    else if s[..|sub|] == sub then true
    else Contains(s[1..], sub)
  }

  lemma {:induction false} ContainsIsOccurrence(s: string, sub: string)
    ensures Contains(s, sub) <==> exists i :: OccursAt(s, sub, i)
    decreases |s|
  {
    if |sub| > |s| {
      assert forall i :: !OccursAt(s, sub, i);
    } else if s[..|sub|] == sub {
      assert OccursAt(s, sub, 0);
    } else {
      ContainsIsOccurrence(s[1..], sub);
      if Contains(s[1..], sub) {
        var i :| OccursAt(s[1..], sub, i);
        TailSlice(s, i + 1, |sub|);
        assert OccursAt(s, sub, i + 1);
      } else {
        forall i ensures !OccursAt(s, sub, i) {
          if 0 < i && i + |sub| <= |s| {
            TailSlice(s, i, |sub|);
            assert !OccursAt(s[1..], sub, i - 1);
          } else if i == 0 {
            assert s[0..|sub|] == s[..|sub|];
          }
        }
      }
    }
  }

  /** A slice of the tail is the slice of the whole one position further on. */
  lemma TailSlice(s: string, i: int, n: nat)
    requires 1 <= i && i + n <= |s|
    ensures s[1..][i - 1..i - 1 + n] == s[i..i + n]
  {
    var shifted, direct := s[1..][i - 1..i - 1 + n], s[i..i + n];
    assert forall k :: 0 <= k < n ==> shifted[k] == direct[k];
  }

  predicate IsLowerAscii(c: char) { 'a' <= c <= 'z' }

  /** `toUpperCase` on one character, restricted to the ASCII letters. */
  function UpperChar(c: char): (u: char)
    ensures IsLowerAscii(c) ==> u as int == c as int - 32
    ensures !IsLowerAscii(c) ==> u == c
    ensures !IsLowerAscii(u)
  {
    if IsLowerAscii(c) then (c as int - 32) as char else c
  }

  /** `String.prototype.toUpperCase` over ASCII: lower-case letters become upper-case, nothing else changes. */
  function ToUpper(s: string): (r: string)
    ensures |r| == |s|
    ensures forall i :: 0 <= i < |s| ==> r[i] == UpperChar(s[i])
    ensures forall i :: 0 <= i < |r| ==> !IsLowerAscii(r[i])
  {
    seq(|s|, i requires 0 <= i < |s| => UpperChar(s[i]))
  }

  lemma ToUpperIdempotent(s: string)
    ensures ToUpper(ToUpper(s)) == ToUpper(s)
  {
  }

  predicate IsDigit(c: char) { '0' <= c <= '9' }

  function DigitChar(d: nat): (c: char)
    requires d < 10
    ensures IsDigit(c) && c as int - '0' as int == d
  {
    ('0' as int + d) as char
  }

  function DigitValue(c: char): (d: nat)
    requires IsDigit(c)
    ensures d < 10 && DigitChar(d) == c
  {
    c as int - '0' as int
  }

  predicate AllDigits(s: string)
  {
    forall i :: 0 <= i < |s| ==> IsDigit(s[i])
  }

  /** The decimal numeral of `n`, as JavaScript writes an integer: no sign, no leading zero. */
  function Decimal(n: nat): (r: string)
    ensures |r| >= 1 && AllDigits(r)
    ensures r[0] == '0' <==> n == 0
    decreases n
  {
    if n < 10 then [DigitChar(n)] else Decimal(n / 10) + [DigitChar(n % 10)]
  }

  /** Reads a numeral back (most significant digit first). */
  function ParseDecimal(s: string): nat
    requires AllDigits(s)
    decreases |s|
  {
    if s == [] then 0 else ParseDecimal(s[..|s| - 1]) * 10 + DigitValue(s[|s| - 1])
  }

  lemma {:induction false} ParseDecimalInvertsDecimal(n: nat)
    ensures ParseDecimal(Decimal(n)) == n
    decreases n
  {
    var s := Decimal(n);
    if n >= 10 {
      ParseDecimalInvertsDecimal(n / 10);
      assert s[..|s| - 1] == Decimal(n / 10);
    } else {
      assert s[..|s| - 1] == [];
    }
  }
}

=== FILE: wrappers.dfy ===
/** The optional value used wherever the storefront reads a field that may be absent. */
module Wrappers {

  datatype Option<+T> = None | Some(value: T)
}
